=== FILE: README.md ===
# Crusoe cloud controller manager: instance resolution and liveness, in Dafny

This project models the core of the Crusoe cloud controller manager, the
component that maps Kubernetes nodes to Crusoe Cloud instances and reports
their identity, addresses, type, power state and existence to the cluster.
The model has five parts:

- **Provider IDs** (`ProviderId`). The fixed `crusoe://` scheme is dropped from
  a provider ID by slicing off its first nine bytes, without any check
  that those bytes are the scheme. The model slices nine characters, which
  is the same for the ASCII IDs the controller writes. The live resolver (`Instances.GetProviderID`)
  applies a three-way tie-break:
  - It trusts the declared provider ID when the node reports no system UUID,
    or when the UUID equals the ID's suffix.
  - It distrusts the declared ID and looks the node up by name when the UUID
    differs from the suffix.
  - It looks the node up by name when no ID is declared and no system UUID
    is reported. With a UUID set, an empty ID panics (see "## Findings").

  The older variant (`LegacyInstances`) trusts any declared ID.
- **The liveness table** (`Liveness`). This is a map from provider ID to an
  instant. It keeps answering "exists" to HTTP 404 answers only while fewer
  than five minutes have passed since the last check that was not a 404, or
  since the first 404 when there was none. The rules are:
  - An error that came with a non-404 response is returned, and the table is
    left unchanged.
  - A 404 answers by the age of the stored instant. It stores `now` only if
    the ID had no entry.
  - Anything else stores `now` and answers "exists". This includes an error
    that came with no response.

  `Liveness.Anchor` is a reference definition of the stored instant: the time
  of the latest check that was neither a 404 nor an error with a response (a
  success or a response-less error), else the time of the first 404. A
  success that carries status 404 counts as a 404. `Liveness.ReplayMatchesAnchor`
  proves by induction that the table always holds that instant.
- **Shutdown classification** (`Shutdown`). An instance is shut down when the
  lookup succeeded and returned either no record or a record in state
  `STATE_SHUTOFF` or `STATE_SHUTDOWN`. Any lookup error is returned. The
  liveness table is not involved.
- **Addresses and metadata** (`Metadata`, `Instances.NodeAddressesOf`,
  `LegacyInstances.NodeAddressesOf`):
  - Exactly three addresses, in the order internal IP, external IP, host name.
    The host name is `name.location.compute.internal` in the live variant and
    the bare name in the legacy one.
  - Four instance labels, always present.
  - Three InfiniBand partition labels, present only when the instance has a
    host-channel adapter and the lookup of the first adapter's partition
    returned a partition.
- **Directory lookups** (`Upstream`, `Client`, `LegacyLookup`):
  - The by-name query uses the node name cut at its first `.`.
  - An empty project scope is a configuration error.
  - An empty listing is "not found".
  - Otherwise the first item is returned.

  The production by-identifier lookup keeps the HTTP status of a failed
  call, and its "not found" carries no status. The legacy one never answers
  "not found": a missing instance is an upstream error with its status.

External effects are parameters:

- The project scope read from `CRUSOE_PROJECT_ID` is the `scope` argument.
- `time.Now()` is the integer `now`, in nanoseconds. The grace window is
  `5 * 60 * 10^9`.
- The generated API client is a `Backend` of three functions: list instances,
  get instance, get partition.
- The client interface the resolver consumes is a `Directory` of three
  functions.

A Go runtime panic is modelled as `Failure(Panic)`. The panicking cases are
slicing a provider ID shorter than nine bytes, indexing a missing
network interface or address pair, and dereferencing a nil record or a nil
address of the first pair. Error
wrapping with `%w` keeps the error's identity, so it is modelled as
returning the same `ErrorKind`.

Two behaviours of the code are kept as written:

- **An error without a response counts as found.** Examples are "instance not
  found" and "project ID not set". Such an error restamps the liveness entry
  and answers "exists", so an instance missing from the production client's
  listing never expires. See `Instances.StatuslessErrorCountsAsFound`,
  `Instances.EmptyListingNeverExpires` and `Instances.MissingScopeNeverExpires`.
- **Live `InstanceMetadata` queries with the prefixed ID.** It asks the
  directory for the full provider ID, prefix included, while every other
  by-ID operation strips the prefix. See `Instances.MetadataQueriesUnstrippedId`
  and `LegacyInstances.MetadataQueriesStrippedId`.

The test file contradicts the code in two places, and the model follows the
code in both:

- `internal/instances/instances_test.go:139-142` expects a fourth consecutive
  "instance not found" from the shutdown check to answer (true, no error).
  `InstanceShutdownByProviderID` returns every lookup error
  (`internal/instances/instances.go:101-103`), however often it repeats. This
  test is about the shutdown check, not about the existence check's rule for
  errors without a response, which no test exercises.
- `internal/instances/instances_test.go:153` expects the metadata lookup to
  ask for the stripped identifier. The live code asks for the full provider
  ID.

## Model

| member | source | states |
|---|---|---|
| ProviderId.InstanceIdOf | internal/instances/instances.go:246-248 | an ID of at least nine characters always succeeds with exactly its first nine dropped, whatever they are; a shorter one panics |
| ProviderId.FromLookup | internal/instances/instances.go:235-241 | a by-name lookup error is propagated; otherwise the result carries the prefix and strips back to the found instance's Id |
| ProviderId.StripAfterPrefix | internal/instances/instances.go:240 | stripping a synthesized `crusoe://` + Id recovers the Id |
| ProviderId.PrefixAfterStrip | internal/instances/instances.go:246-248 | for an ID that does carry the prefix, prefixing the stripped part rebuilds the ID |
| ProviderId.PrefixIsNotChecked | internal/cloud-controller-manager/instances.go:233-235 | a foreign scheme of nine characters is dropped like the real one; an eight-character ID panics |
| Upstream.ShortName | internal/client/client.go:41 | the query name is a dot-free prefix of the node name that ends at the first dot or at the end |
| Upstream.ShortNameUnique | internal/client/client.go:41 | those three properties determine the short name uniquely |
| Upstream.ShortNameOfQualified | internal/cloud-controller-manager/util.go:32 | `host.domain...` shortens to `host` when the host part has no dot |
| Upstream.ShortNameIdempotent | internal/client/client.go:41 | shortening twice equals shortening once |
| Client.GetInstanceByName | internal/client/client.go:35-60 | empty scope gives ProjectIDNotSet whatever the backend holds; otherwise the short name is queried; an upstream error gives Upstream, an empty listing InstanceNotFound, else the first item |
| Client.GetIBNetwork | internal/client/client.go:62-75 | an upstream error gives Upstream; otherwise a non-nil partition |
| Client.GetInstanceByID | internal/client/client.go:77-102 | empty scope gives ProjectIDNotSet with no status; an upstream error keeps its response status; an empty listing is InstanceNotFound with no status; success is the first item with the response status |
| Client.ByNameIgnoresDomain | internal/client/client.go:41-46 | a fully-qualified node name finds the same instance as its host part |
| LegacyLookup.GetInstanceByName | internal/cloud-controller-manager/util.go:26-51 | same scope check, short-name query, not-found and first-item rules as the production client |
| LegacyLookup.GetIBNetwork | internal/cloud-controller-manager/util.go:53-66 | an upstream error gives Upstream; otherwise a non-nil partition |
| LegacyLookup.GetInstanceByID | internal/cloud-controller-manager/util.go:68-87 | empty scope gives ProjectIDNotSet; an upstream error keeps its status; success always carries a record, with no empty-result case |
| Liveness.Observe | internal/instances/instances.go:127-157 | an error with a non-404 response is returned with the table unchanged; a 404 on an absent key stores `now` and answers true; a 404 on a present key leaves it and answers `now - stored < 5 min`; anything else stores `now` and answers true; other keys never change |
| Liveness.Replay | internal/instances/instances.go:134-157 | over any history of checks, no key is ever removed and keys other than the checked ID are untouched |
| Liveness.ReplayMatchesAnchor | internal/instances/instances.go:133-157 | for an ID that started absent, the stored instant is the latest check that was neither a 404 nor an error with a response (a success or a response-less error) if any, else the first 404; the entry exists iff such a sighting exists |
| Liveness.MissVerdictFromAnchor | internal/instances/instances.go:143-153 | a 404 check answers "exists" iff fewer than five minutes passed since that anchor |
| Liveness.NeverEvicts | internal/instances/instances.go:134-138 | no sequence of checks removes an entry |
| Liveness.SustainedAbsence | internal/instances/instances.go:144-153 | first 404 gives true, a 404 four minutes later gives true, a 404 at exactly five minutes gives false |
| Liveness.SightingResetsClock | internal/instances/instances.go:155-157 | after a success at t1, a 404 at t2 answers `t2 - t1 < 5 min` whatever was stored before |
| Shutdown.Classify | internal/instances/instances.go:101-110 | error iff the lookup failed; true iff the lookup succeeded with no record or with state STATE_SHUTOFF or STATE_SHUTDOWN; false for any other state |
| Shutdown.StatusIsIgnored | internal/instances/instances.go:101-103 | the verdict does not depend on the response status, so a 404 error is an error here |
| Shutdown.RunningIsNotShutdown | internal/instances/instances.go:104-110 | a running record, or one with an empty state, is not shut down |
| Metadata.RecordOf | internal/instances/instances.go:181-187 | a lookup error is passed on; a nil record panics at its first dereference; otherwise the record |
| Metadata.PartitionOf | internal/instances/instances.go:190-196 | no adapters means no partition lookup; otherwise the lookup of adapter 0's partition in the instance's project |
| Metadata.PartitionUsesFirstAdapterOnly | internal/instances/instances.go:191-192 | adapters after the first never change the partition lookup |
| Metadata.Labels | internal/instances/instances.go:189-206 | the keys are exactly the four instance labels plus the three partition labels iff a partition was found, with the stated values |
| Metadata.PartitionLabelsIff | internal/instances/instances.go:197-201 | the two label groups are disjoint, and the partition labels are present iff a partition was found |
| Metadata.Build | internal/instances/instances.go:207-213 | the provider ID carries the prefix and strips to the instance Id; type, region, labels and addresses come from the record |
| Instances.GetProviderID | internal/instances/instances.go:225-244 | trusted declared ID returned unchanged; a short declared ID compared with a set UUID panics; otherwise the prefixed Id from the by-name lookup, whose errors propagate |
| Instances.ResolutionCases | internal/instances/instances.go:225-244 | every node is trusted, panics, or is resolved by lookup; only a panic or a lookup error fails resolution |
| Instances.StaleProviderIdDiscarded | internal/instances/instances.go:227-234 | a declared ID whose suffix differs from a set UUID is replaced by the lookup result |
| Instances.ResolvedAgreesWithUuid | internal/instances/instances.go:227-241 | when the directory's record for the name has the UUID as Id, every resolved ID strips to the UUID |
| Instances.ResolutionFixedPoint | internal/instances/instances.go:226-243 | writing the resolved ID back into the node makes later resolution return it without any lookup |
| Instances.EmptyProviderIdWithUuidPanics | internal/instances/instances.go:227-228 | an empty declared ID with a set UUID panics instead of being looked up |
| Instances.GetProviderIDIntended | internal/instances/instances.go:225-244 | the corrected tie-break: a trusted declared ID is kept, only a short non-empty declared ID compared with a set UUID panics, every other node (an empty declared ID included) is looked up by name; it fails only by that panic or with the lookup's error and returns the trusted ID or the prefixed looked-up Id |
| Instances.IntendedRepairsOnlyEmptyId | internal/instances/instances.go:227-235 | the correction differs from the code exactly on nodes with no declared ID and a set UUID, where the code panics and the corrected resolution looks the node up |
| Instances.NodeAddressesOf | internal/instances/instances.go:250-265 | exactly three addresses: internal IP and external IP from interface 0's pair 0 (both present), then `name.location.compute.internal` |
| Instances.HostnameFindsInstance | internal/instances/instances.go:260 | the host-name address, looked up by name, issues the same query as the instance's own name |
| Instances.AddressesOrPanic | internal/instances/instances.go:250-265 | addresses exist iff there is a first interface with a first pair whose private and public addresses are both set; otherwise the index or the nil dereference panics |
| Instances.LookupRecord | internal/instances/instances.go:76-82 | queries the stripped Id; a lookup error is passed on; a nil record panics |
| Instances.NodeAddresses | internal/instances/instances.go:30-37 | a by-name lookup error is propagated; otherwise the three addresses of the record |
| Instances.NodeAddressesByProviderID | internal/instances/instances.go:39-54 | a by-ID lookup error is propagated; otherwise the three addresses of the record |
| Instances.InstanceID | internal/instances/instances.go:56-63 | succeeds iff the by-name lookup does, with the record's Id |
| Instances.ResolvedIdIsPrefixedInstanceID | internal/instances/instances.go:235-241 | with no declared ID and no UUID, resolution yields `crusoe://` + InstanceID, or InstanceID's error |
| Instances.InstanceType | internal/instances/instances.go:65-73 | succeeds iff the by-name lookup does, with the record's type |
| Instances.InstanceTypeByProviderID | internal/instances/instances.go:75-86 | succeeds iff the stripped-ID lookup yields a record, with its type |
| Instances.CurrentNodeName | internal/instances/instances.go:92-94 | the node name is the host name, unchanged |
| Instances.AddSSHKeyToAllInstances | internal/instances/instances.go:88-90 | always fails with NotImplemented |
| Instances.InstanceShutdownByProviderID | internal/instances/instances.go:96-111 | the stripped Id is queried; an error iff the lookup failed, and then exactly the lookup's error; true iff found with no record or a powered-off state |
| Instances.InstanceShutdown | internal/instances/instances.go:113-120 | a resolution error is returned; otherwise the by-provider-ID shutdown check of the resolved ID |
| Instances.InstanceExistsByProviderID | internal/instances/instances.go:122-158 | the stripped Id is queried and the step is `Observe` of that outcome under the full ID: a non-404 error with a response is returned as is, table unchanged; a refresh, or a 404 on a new key, stores `now` under the full ID; a 404 on a known key leaves the table as is; false iff that key is at least five minutes old |
| Instances.InstanceExists | internal/instances/instances.go:160-167 | a resolution error is returned with the table unchanged; otherwise the by-provider-ID check of the resolved ID |
| Instances.StatuslessErrorCountsAsFound | internal/instances/instances.go:127-157 | an error without a response restamps the entry and answers true |
| Instances.EmptyListingNeverExpires | internal/client/client.go:97-99 | with the production client, an empty by-ID listing always answers "exists" |
| Instances.MissingScopeNeverExpires | internal/client/client.go:80-83 | with the production client and no project scope, every existence check answers "exists" |
| Instances.InstanceMetadata | internal/instances/instances.go:169-217 | success only when the full resolved provider ID, prefix included, finds a record with an address pair and any partition lookup succeeds; the result is built from that record; resolution, lookup and partition errors propagate unchanged, a nil record or a missing address pair panics |
| Instances.MetadataPartitionLabels | internal/instances/instances.go:190-206 | the instance labels are always present; partition labels appear iff an adapter exists and adapter 0's partition lookup returned a partition |
| Instances.MetadataQueriesUnstrippedId | internal/instances/instances.go:177 | against a directory that knows only the bare Id, the instance exists and has a type, but its metadata is not found |
| LegacyInstances.GetProviderID | internal/cloud-controller-manager/instances.go:220-231 | any non-empty declared ID is returned unchanged; an empty one becomes the prefixed Id from the by-name lookup |
| LegacyInstances.ResolutionAgainstLive | internal/cloud-controller-manager/instances.go:220-231 | without a UUID both variants agree; with a disagreeing UUID the legacy variant keeps the stale ID and the live one looks it up |
| LegacyInstances.NodeAddressesOf | internal/cloud-controller-manager/instances.go:237-252 | exactly three addresses: internal IP and external IP from interface 0's pair 0 (both present), and the bare instance name |
| LegacyInstances.AddressesAgainstLive | internal/cloud-controller-manager/instances.go:246-248 | same IP entries as the live variant; the live host name is the legacy one plus `.location.compute.internal` |
| LegacyInstances.InstanceShutdownByProviderID | internal/cloud-controller-manager/instances.go:94-109 | an error iff the lookup failed, and then exactly the lookup's error; true iff found with no record or a powered-off state |
| LegacyInstances.InstanceShutdown | internal/cloud-controller-manager/instances.go:111-118 | a resolution error is returned; otherwise the by-provider-ID check |
| LegacyInstances.InstanceExistsByProviderID | internal/cloud-controller-manager/instances.go:120-156 | the same grace-window step as the live one: the lookup's error returned with the table untouched, `now` stored under the full ID on a refresh or a first 404, false iff a 404 hits an entry at least five minutes old |
| LegacyInstances.ByProviderIdAgainstLive | internal/cloud-controller-manager/instances.go:94-156 | given the same directory answers, the by-provider-ID existence and shutdown checks of both variants are equal, table included |
| LegacyInstances.MissExpiresWithLegacyLookup | internal/cloud-controller-manager/util.go:68-87 | with the legacy GetInstance lookup, a backend answering 404 for the Id makes the first check of a new key answer true and the check one grace window later answer false, unlike the production client's empty listing |
| LegacyInstances.InstanceExists | internal/cloud-controller-manager/instances.go:158-165 | a resolution error is returned with the table unchanged; otherwise the by-provider-ID check |
| LegacyInstances.InstanceMetadata | internal/cloud-controller-manager/instances.go:167-212 | strips the declared ID with no resolution, so a short or empty one panics; success only when the stripped Id finds a record with an address pair and any partition lookup succeeds; lookup and partition errors propagate unchanged, a nil record or a missing address pair panics |
| LegacyInstances.MetadataSkipsResolution | internal/cloud-controller-manager/instances.go:171-172 | metadata depends neither on the by-name lookup nor on the system UUID |
| LegacyInstances.MetadataQueriesStrippedId | internal/cloud-controller-manager/instances.go:171-172 | where the live variant misses the instance, the legacy one finds it by the bare Id |

## Left out

- The bootstrap files `cmd/crusoe-cloud-controller-manager/main.go`, `internal/cloud.go` and `internal/cloud-controller-manager/cloud.go`. They register the provider, start informers and read credentials from the environment, and hold no decision logic.
- `internal/client/mock/client.go`, a generated test double. Arbitrary `Directory` and `Backend` values stand in for it.
- The network calls ListInstances, GetInstance and GetIBPartition, and the closing of response bodies. The calls are the uninterpreted functions of `Backend`.
- Klog logging, and the text of wrapped error messages.
- The concurrency of `sync.Map`. The table is a sequential map threaded through each call, so racing callers are not modelled.
- The `ErrAssertTimeTypeFailed` branch. It cannot be reached when the table's values are typed instants.
- Context cancellation. No context is modelled.
- The legacy `NodeAddresses`, `NodeAddressesByProviderID`, `InstanceID`, `InstanceType`, `InstanceTypeByProviderID`, `CurrentNodeName` and `AddSSHKeyToAllInstances`. They are the live ones, composed with `LegacyInstances.NodeAddressesOf` and `LegacyLookup` and without error wrapping, so they are not written a second time.
- Liveness.Observe: instants are unbounded integers. `time.Sub` saturating at the int64 range is not modelled.
- ProviderId.InstanceIdOf: Go slices the provider ID by bytes, the model by characters. The two agree on ASCII IDs, which are all the controller writes; on other IDs they differ (`"ééééé"` is ten bytes, so Go returns its last byte, while the model panics on its five characters). The UUID comparison in `Instances.PanicsOnCompare` and `Instances.Trusted` inherits the same difference.
- Instances.GetProviderID, Instances.NodeAddresses, Instances.InstanceID, Instances.InstanceType, LegacyInstances.GetProviderID: a by-name lookup that succeeds with a nil record, which would panic at the first field access (`internal/instances/instances.go:36`, `:62`, `:70`, `:240`, and `internal/cloud-controller-manager/instances.go:227`), is not modelled, because a `Directory` by-name answer always carries a record. The production and legacy clients never return one.

## Findings

| source | as written | input that shows it | evidently intended | confidence | as-written member | corrected member |
|---|---|---|---|---|---|---|
| internal/instances/instances.go:227-235 | The declared provider ID is sliced at `[9:]` whenever a system UUID is set. This happens before line 235 tests the ID for emptiness. | A node with provider ID `""` and system UUID `"abc"`. This is a freshly registered node before the controller has set its provider ID. | Fall back to the lookup by name, which is what the `providerID == ""` branch at line 235 exists for. | not executed; medium | Instances.EmptyProviderIdWithUuidPanics | Instances.GetProviderIDIntended |

`Instances.GetProviderIDIntended` is the corrected resolution, and
`Instances.IntendedRepairsOnlyEmptyId` shows it differs from the code only on
the input above. The operations
keep the as-written `Instances.GetProviderID`, because that is what the
controller runs.

=== FILE: api.dfy ===
/**
 Data model shared by the instance resolver and the directory clients:
 the instance records the cloud directory returns, the Kubernetes node
 identity the resolver starts from, the orchestrator-facing projections
 (node addresses, instance metadata), the error kinds, and the abstract
 directory interface the resolver consumes.
 */
module Api {

  /** A Go pointer that may be nil. */
  datatype Option<+T> = None | Some(value: T)

  /** The error kinds the core can return or propagate. Wrapping an error with
      `fmt.Errorf("...: %w", err)` keeps its kind, so wrapping is not modelled. */
  datatype ErrorKind =
    | ProjectIDNotSet   // the project scope environment value is empty
    | InstanceNotFound  // a directory query matched nothing
    | Upstream          // the generated API client returned an error
    | NotImplemented    // a capability the provider does not support
    | Panic             // a Go runtime panic: slice out of range, index out of range, nil dereference

  /** A value or an error, usable with `:-`. */
  datatype Result<+T> = Success(value: T) | Failure(error: ErrorKind) {
    predicate IsFailure() {
      Failure?
    }

    function PropagateFailure<U>(): Result<U>
      requires Failure?
    {
      Failure(error)
    }

    function Extract(): T
      requires Success?
    {
      value
    }
  }

  /** One private/public IPv4 pair of a network interface. Either address
      record may be absent (a nil pointer in the generated client). */
  datatype IpPair = IpPair(privateIpv4: Option<string>, publicIpv4: Option<string>)

  datatype NetworkInterface = NetworkInterface(ips: seq<IpPair>)

  /** A host-channel adapter names the InfiniBand partition it is attached to. */
  datatype HostChannelAdapter = HostChannelAdapter(ibPartitionId: string)

  /** The fields of a directory instance record that the core reads. */
  datatype Instance = Instance(
    id: string,
    name: string,
    state: string,
    location: string,
    instanceType: string,
    projectId: string,
    instanceGroupId: string,
    instanceTemplateId: string,
    networkInterfaces: seq<NetworkInterface>,
    hostChannelAdapters: seq<HostChannelAdapter>)

  datatype IbPartition = IbPartition(id: string, name: string, ibNetworkId: string)

  /** The parts of a Kubernetes node object the resolver reads: its name,
      `Spec.ProviderID` and `Status.NodeInfo.SystemUUID` (empty when unset). */
  datatype Node = Node(name: string, providerId: string, systemUuid: string)

  datatype AddressType = InternalIP | ExternalIP | Hostname

  datatype NodeAddress = NodeAddress(kind: AddressType, address: string)

  datatype InstanceMetadata = InstanceMetadata(
    providerId: string,
    instanceType: string,
    region: string,
    labels: map<string, string>,
    addresses: seq<NodeAddress>)

  /** What a by-identifier lookup hands back: a possibly nil record with the
      HTTP status of the response (None when the response is nil), or an
      error with the HTTP status of the response that came with it. */
  datatype IdOutcome =
    | Found(record: Option<Instance>, status: Option<int>)
    | Failed(error: ErrorKind, status: Option<int>)

  /** The directory client interface the resolver depends on: lookup by node
      name, lookup by instance identifier, and lookup of an InfiniBand
      partition by project and partition identifier. */
  datatype Directory = Directory(
    byName: string -> Result<Instance>,
    byId: string -> IdOutcome,
    ibNetwork: (string, string) -> Result<Option<IbPartition>>)
}

=== FILE: client.dfy ===
/**
 The production directory client: by-name and by-identifier instance lookups
 over ListInstances, and the InfiniBand partition lookup, all scoped to the
 project read from the environment (passed in here as `scope`).
 */
module Client {
  import opened Api
  import opened Upstream

  /** Lookup by node name: the query is the node name's short form; an empty
      listing is "not found"; of several matches the first is taken. */
  function GetInstanceByName(scope: string, backend: Backend, nodeName: string): (r: Result<Instance>)
    ensures scope == "" ==> r == Failure(ProjectIDNotSet)
    ensures scope != "" ==>
      var reply := backend.listInstances(scope, ByNames(ShortName(nodeName)));
      && (r.Success? <==> !reply.failed && |reply.body| > 0)
      && (r.Success? ==> r.value == reply.body[0])
      && (r == Failure(InstanceNotFound) <==> !reply.failed && reply.body == [])
      && (r == Failure(Upstream) <==> reply.failed)
  {
    if scope == "" then Failure(ProjectIDNotSet)
    else
      var reply := backend.listInstances(scope, ByNames(ShortName(nodeName)));
      if reply.failed then Failure(Upstream)
      else if |reply.body| == 0 then Failure(InstanceNotFound)
      else Success(reply.body[0])
  }

  /** Partition lookup: an upstream error is returned as such; otherwise the
      (never nil) partition body. */
  function GetIBNetwork(backend: Backend, projectId: string, partitionId: string): (r: Result<Option<IbPartition>>)
    ensures r.Failure? <==> backend.getIbPartition(projectId, partitionId).failed
    ensures r.Failure? ==> r.error == Upstream
    ensures r.Success? ==> r.value == Some(backend.getIbPartition(projectId, partitionId).body)
  {
    var reply := backend.getIbPartition(projectId, partitionId);
    if reply.failed then Failure(Upstream) else Success(Some(reply.body))
  }

  /** Lookup by instance identifier over ListInstances. An upstream error keeps
      the response status visible; an empty listing is "not found" WITHOUT a
      status, exactly like a missing project scope. */
  function GetInstanceByID(scope: string, backend: Backend, instanceId: string): (r: IdOutcome)
    ensures scope == "" ==> r == Failed(ProjectIDNotSet, None)
    ensures r.Failed? && r.error != Upstream ==> r.status == None
    ensures scope != "" ==>
      var reply := backend.listInstances(scope, ByIds(instanceId));
      && (reply.failed ==> r == Failed(Upstream, reply.status))
      && (!reply.failed && reply.body == [] ==> r == Failed(InstanceNotFound, None))
      && (r.Found? <==> !reply.failed && reply.body != [])
      && (r.Found? ==> r.record == Some(reply.body[0]) && r.status == reply.status)
  {
    if scope == "" then Failed(ProjectIDNotSet, None)
    else
      var reply := backend.listInstances(scope, ByIds(instanceId));
      if reply.failed then Failed(Upstream, reply.status)
      else if |reply.body| == 0 then Failed(InstanceNotFound, None)
      else Found(Some(reply.body[0]), reply.status)
  }

  /** The client as the resolver sees it. */
  function AsDirectory(scope: string, backend: Backend): Directory
  {
    Directory(
      n => GetInstanceByName(scope, backend, n),
      i => GetInstanceByID(scope, backend, i),
      (p, h) => GetIBNetwork(backend, p, h))
  }

  /** A fully-qualified node name finds the same instance as its host part. */
  lemma ByNameIgnoresDomain(scope: string, backend: Backend, name: string, domain: string)
    requires '.' !in name
    ensures GetInstanceByName(scope, backend, name + "." + domain) == GetInstanceByName(scope, backend, name)
  {
    ShortNameOfQualified(name, domain);
    ShortNameIdempotent(name);
    ShortNameUnique(name, name);
  }
}

=== FILE: instances.dfy ===
/**
 The instance resolver the controller runs: provider-ID resolution with the
 system-UUID tie-break, node addresses with a derived FQDN host name, the
 grace-windowed existence check, the shutdown check and instance metadata.
 Every operation takes the directory client; the existence checks also take
 the liveness table and the current instant and return the updated table.
 */
module Instances {
  import opened Api
  import opened ProviderId
  import opened Liveness
  import opened Metadata
  import Shutdown
  import Upstream
  import Client

  /** The node declares a provider ID that is kept as is: the system UUID is
      unset, or it equals what stripping the provider ID yields. */
  predicate Trusted(node: Node) {
    node.providerId != "" &&
    (node.systemUuid == "" || InstanceIdOf(node.providerId) == Success(node.systemUuid))
  }

  /** Comparing a short declared provider ID with a set system UUID panics. */
  predicate PanicsOnCompare(node: Node) {
    node.systemUuid != "" && |node.providerId| < |Prefix|
  }

  /** Resolution of a node's provider ID: trust the declared ID, distrust it
      and look the node up by name, or look it up because none is declared. */
  function GetProviderID(dir: Directory, node: Node): (r: Result<string>)
    ensures PanicsOnCompare(node) ==> r == Failure(Panic)
    ensures Trusted(node) ==> r == Success(node.providerId)
    ensures !PanicsOnCompare(node) && !Trusted(node) ==> r == FromLookup(dir, node.name)
  {
    var declared :-
      if node.systemUuid == "" then Success(node.providerId)
      else
        var suffix :- InstanceIdOf(node.providerId);
        Success(if suffix != node.systemUuid then "" else node.providerId);
    if declared == "" then FromLookup(dir, node.name) else Success(declared)
  }

  /** The three cases of resolution cover every node, and only a lookup can
      fail other than by panicking. */
  lemma ResolutionCases(dir: Directory, node: Node)
    ensures PanicsOnCompare(node) || Trusted(node) ||
            GetProviderID(dir, node) == FromLookup(dir, node.name)
    ensures GetProviderID(dir, node).Failure? ==>
              PanicsOnCompare(node) || dir.byName(node.name).Failure?
  {
  }

  /** A declared ID that disagrees with a set system UUID is never returned
      unless the lookup by name yields it again. */
  lemma StaleProviderIdDiscarded(dir: Directory, node: Node)
    requires node.systemUuid != "" && |node.providerId| >= |Prefix|
    requires node.providerId[|Prefix|..] != node.systemUuid
    ensures GetProviderID(dir, node) == FromLookup(dir, node.name)
  {
  }

  /** The system UUID is the ground truth: when the directory's record for the
      node name carries the UUID, a resolved provider ID always names it. */
  lemma ResolvedAgreesWithUuid(dir: Directory, node: Node)
    requires node.systemUuid != ""
    requires dir.byName(node.name).Success? ==> dir.byName(node.name).value.id == node.systemUuid
    ensures GetProviderID(dir, node).Success? ==>
              InstanceIdOf(GetProviderID(dir, node).value) == Success(node.systemUuid)
  {
  }

  /** Writing the resolved ID back into the node makes resolution stable and
      lookup-free, whatever the directory answers next. */
  lemma ResolutionFixedPoint(dir: Directory, node: Node, later: Directory)
    requires GetProviderID(dir, node).Success?
    requires node.systemUuid == "" || InstanceIdOf(GetProviderID(dir, node).value) == Success(node.systemUuid)
    ensures var p := GetProviderID(dir, node).value;
            GetProviderID(later, node.(providerId := p)) == Success(p)
  {
    var p := GetProviderID(dir, node).value;
    assert p != "" by {
      if !Trusted(node) {
        assert HasPrefix(p);
      }
    }
  }

  /** The live host name: the instance name qualified by its location. */
  function HostnameOf(inst: Instance): string {
    inst.name + "." + inst.location + ".compute.internal"
  }

  /** Exactly three addresses, in the fixed order internal IP, external IP,
      host name; the IPs come from the first interface's first pair. */
  function NodeAddressesOf(inst: Instance): (r: seq<NodeAddress>)
    requires HasAddressPair(inst)
    ensures |r| == 3
    ensures r[0] == NodeAddress(InternalIP, FirstPair(inst).privateIpv4.value)
    ensures r[1] == NodeAddress(ExternalIP, FirstPair(inst).publicIpv4.value)
    ensures r[2] == NodeAddress(Hostname, HostnameOf(inst))
  {
    [NodeAddress(InternalIP, FirstPair(inst).privateIpv4.value),
     NodeAddress(ExternalIP, FirstPair(inst).publicIpv4.value),
     NodeAddress(Hostname, HostnameOf(inst))]
  }

  /** The host name address leads back to the instance: a by-name lookup of
      it issues the same query as a lookup of the instance's own name. */
  lemma HostnameFindsInstance(scope: string, backend: Upstream.Backend, inst: Instance)
    requires HasAddressPair(inst)
    requires '.' !in inst.name
    ensures Client.GetInstanceByName(scope, backend, NodeAddressesOf(inst)[2].address) ==
            Client.GetInstanceByName(scope, backend, inst.name)
  {
    assert HostnameOf(inst) == inst.name + "." + (inst.location + ".compute.internal");
    Client.ByNameIgnoresDomain(scope, backend, inst.name, inst.location + ".compute.internal");
  }

  /** Addresses of a record, or the panic of indexing a missing interface or
      pair or of dereferencing a missing address. */
  function AddressesOrPanic(inst: Instance): (r: Result<seq<NodeAddress>>)
    ensures r.Success? <==> HasAddressPair(inst)
    ensures r.Success? ==> r.value == NodeAddressesOf(inst)
    ensures r.Failure? ==> r.error == Panic
  {
    if HasAddressPair(inst) then Success(NodeAddressesOf(inst)) else Failure(Panic)
  }

  /** The record a provider ID names, looked up by its stripped identifier. */
  function LookupRecord(dir: Directory, providerId: string): (r: Result<Instance>)
    ensures |providerId| < |Prefix| ==> r == Failure(Panic)
    ensures |providerId| >= |Prefix| ==> r == RecordOf(dir.byId(providerId[|Prefix|..]))
  {
    var id :- InstanceIdOf(providerId);
    RecordOf(dir.byId(id))
  }

  function NodeAddresses(dir: Directory, name: string): (r: Result<seq<NodeAddress>>)
    ensures dir.byName(name).Failure? ==> r == Failure(dir.byName(name).error)
    ensures dir.byName(name).Success? ==> r == AddressesOrPanic(dir.byName(name).value)
    ensures r.Success? ==> |r.value| == 3
  {
    var inst :- dir.byName(name);
    AddressesOrPanic(inst)
  }

  function NodeAddressesByProviderID(dir: Directory, providerId: string): (r: Result<seq<NodeAddress>>)
    ensures LookupRecord(dir, providerId).Failure? ==> r == Failure(LookupRecord(dir, providerId).error)
    ensures LookupRecord(dir, providerId).Success? ==> r == AddressesOrPanic(LookupRecord(dir, providerId).value)
    ensures r.Success? ==> |r.value| == 3
  {
    var inst :- LookupRecord(dir, providerId);
    AddressesOrPanic(inst)
  }

  function InstanceID(dir: Directory, nodeName: string): (r: Result<string>)
    ensures r.Success? <==> dir.byName(nodeName).Success?
    ensures r.Success? ==> r.value == dir.byName(nodeName).value.id
    ensures r.Failure? ==> r.error == dir.byName(nodeName).error
  {
    var inst :- dir.byName(nodeName);
    Success(inst.id)
  }

  /** A node with neither a declared provider ID nor a system UUID resolves
      to the prefixed InstanceID. */
  lemma ResolvedIdIsPrefixedInstanceID(dir: Directory, node: Node)
    requires node.providerId == "" && node.systemUuid == ""
    ensures InstanceID(dir, node.name).Success? ==>
              GetProviderID(dir, node) == Success(ForInstance(InstanceID(dir, node.name).value))
    ensures InstanceID(dir, node.name).Failure? ==>
              GetProviderID(dir, node) == Failure(InstanceID(dir, node.name).error)
  {
  }

  /** With a system UUID set, an empty declared provider ID is sliced before
      it is tested for emptiness, so resolution panics instead of looking the
      node up by name, whatever the directory holds. */
  lemma EmptyProviderIdWithUuidPanics(dir: Directory, node: Node)
    requires node.providerId == "" && node.systemUuid != ""
    ensures GetProviderID(dir, node) == Failure(Panic)
  {
  }

  /** Resolution as evidently intended: a trusted declared ID is kept, only a
      short NON-EMPTY declared ID compared with a set UUID panics, and every
      other node, in particular one with no declared ID, is looked up by
      name. It fails only by that panic or with the lookup's own error, and
      succeeds with the trusted ID or the prefixed looked-up identifier. */
  function GetProviderIDIntended(dir: Directory, node: Node): (r: Result<string>)
    ensures Trusted(node) ==> r == Success(node.providerId)
    ensures node.providerId != "" && PanicsOnCompare(node) ==> r == Failure(Panic)
    ensures !Trusted(node) && !(node.providerId != "" && PanicsOnCompare(node)) ==>
              r == FromLookup(dir, node.name)
    ensures r.Failure? ==>
              (node.providerId != "" && PanicsOnCompare(node) && r.error == Panic) ||
              r == Failure(dir.byName(node.name).error)
    ensures r.Success? ==>
              (Trusted(node) && r.value == node.providerId) ||
              (dir.byName(node.name).Success? && r.value == ForInstance(dir.byName(node.name).value.id))
  {
    if node.providerId == "" then FromLookup(dir, node.name) else GetProviderID(dir, node)
  }

  /** The correction changes exactly the nodes with no declared ID and a set
      UUID: there the code panics and the intended resolution looks the node
      up; on every other node the two agree. */
  lemma IntendedRepairsOnlyEmptyId(dir: Directory, node: Node)
    ensures node.providerId == "" && node.systemUuid != "" ==>
              && GetProviderID(dir, node) == Failure(Panic)
              && GetProviderIDIntended(dir, node) == FromLookup(dir, node.name)
    ensures !(node.providerId == "" && node.systemUuid != "") ==>
              GetProviderIDIntended(dir, node) == GetProviderID(dir, node)
  {
  }

  function InstanceType(dir: Directory, name: string): (r: Result<string>)
    ensures r.Success? <==> dir.byName(name).Success?
    ensures r.Success? ==> r.value == dir.byName(name).value.instanceType
    ensures r.Failure? ==> r.error == dir.byName(name).error
  {
    var inst :- dir.byName(name);
    Success(inst.instanceType)
  }

  function InstanceTypeByProviderID(dir: Directory, providerId: string): (r: Result<string>)
    ensures r.Success? <==> LookupRecord(dir, providerId).Success?
    ensures r.Success? ==> r.value == LookupRecord(dir, providerId).value.instanceType
    ensures r.Failure? ==> r.error == LookupRecord(dir, providerId).error
  {
    var inst :- LookupRecord(dir, providerId);
    Success(inst.instanceType)
  }

  /** The node name is the host name, unchanged. */
  function CurrentNodeName(hostname: string): (r: string)
    ensures r == hostname
  {
    hostname
  }

  /** Adding SSH keys is not supported. */
  function AddSSHKeyToAllInstances(user: string, keyData: seq<bv8>): (r: Result<()>)
    ensures r.Failure? && r.error == NotImplemented
  {
    Failure(NotImplemented)
  }

  /** Whether the instance is powered off. The liveness table plays no part. */
  function InstanceShutdownByProviderID(dir: Directory, providerId: string): (r: Result<bool>)
    ensures |providerId| < |Prefix| ==> r == Failure(Panic)
    ensures |providerId| >= |Prefix| ==>
              var o := dir.byId(providerId[|Prefix|..]);
              && (r.Failure? <==> o.Failed?)
              && (o.Failed? ==> r == Failure(o.error))
              && (r == Success(true) <==> o.Found? && (o.record.None? || Shutdown.IsPoweredOff(o.record.value.state)))
  {
    var id :- InstanceIdOf(providerId);
    Shutdown.Classify(dir.byId(id))
  }

  function InstanceShutdown(dir: Directory, node: Node): (r: Result<bool>)
    ensures GetProviderID(dir, node).Failure? ==> r == Failure(GetProviderID(dir, node).error)
    ensures GetProviderID(dir, node).Success? ==>
              r == InstanceShutdownByProviderID(dir, GetProviderID(dir, node).value)
  {
    var providerId :- GetProviderID(dir, node);
    InstanceShutdownByProviderID(dir, providerId)
  }

  /** The grace-windowed existence check. The table is keyed by the full
      provider ID; the directory is asked for the stripped identifier. */
  function InstanceExistsByProviderID(t: Table, providerId: string, now: int, dir: Directory): (s: Step)
    ensures |providerId| < |Prefix| ==> s == Step(Failure(Panic), t)
    ensures s.verdict.Failure? ==> s.table == t
    ensures t.Keys <= s.table.Keys
    ensures |providerId| >= |Prefix| ==>
              var o := dir.byId(providerId[|Prefix|..]);
              && s == Observe(t, providerId, now, o)
              && (s.verdict.Failure? <==> Propagates(o))
              && (Propagates(o) ==> s.verdict == Failure(o.error))
              && (Refreshes(o) || (Reports404(o) && providerId !in t) ==> s.table == t[providerId := now])
              && (Reports404(o) && providerId in t ==> s.table == t)
              && (s.verdict == Success(false) <==>
                    Reports404(o) && providerId in t && now - t[providerId] >= GraceWindow)
  {
    match InstanceIdOf(providerId)
    case Failure(e) => Step(Failure(e), t)
    case Success(id) => Observe(t, providerId, now, dir.byId(id))
  }

  function InstanceExists(t: Table, node: Node, now: int, dir: Directory): (s: Step)
    ensures GetProviderID(dir, node).Failure? ==> s == Step(Failure(GetProviderID(dir, node).error), t)
    ensures GetProviderID(dir, node).Success? ==>
              s == InstanceExistsByProviderID(t, GetProviderID(dir, node).value, now, dir)
  {
    match GetProviderID(dir, node)
    case Failure(e) => Step(Failure(e), t)
    case Success(providerId) => InstanceExistsByProviderID(t, providerId, now, dir)
  }

  /** An error that carries no response is not propagated: it refreshes the
      entry and reports the instance as existing. */
  lemma StatuslessErrorCountsAsFound(t: Table, providerId: string, now: int, dir: Directory)
    requires |providerId| >= |Prefix|
    requires dir.byId(providerId[|Prefix|..]).Failed?
    requires dir.byId(providerId[|Prefix|..]).status == None
    ensures InstanceExistsByProviderID(t, providerId, now, dir) == Step(Success(true), t[providerId := now])
  {
    var s := InstanceExistsByProviderID(t, providerId, now, dir);
    assert s.table == t[providerId := now];
  }

  /** With the production client, an instance the directory no longer lists
      is reported as existing on every check: the empty listing becomes a
      status-less "not found", never a 404. */
  lemma EmptyListingNeverExpires(t: Table, providerId: string, now: int, scope: string, backend: Upstream.Backend)
    requires |providerId| >= |Prefix|
    requires !backend.listInstances(scope, Upstream.ByIds(providerId[|Prefix|..])).failed
    requires backend.listInstances(scope, Upstream.ByIds(providerId[|Prefix|..])).body == []
    ensures InstanceExistsByProviderID(t, providerId, now, Client.AsDirectory(scope, backend)).verdict == Success(true)
  {
  }

  /** With the production client and no project scope, every check reports existence. */
  lemma MissingScopeNeverExpires(t: Table, providerId: string, now: int, backend: Upstream.Backend)
    requires |providerId| >= |Prefix|
    ensures InstanceExistsByProviderID(t, providerId, now, Client.AsDirectory("", backend)).verdict == Success(true)
  {
  }

  /** Instance metadata. The record is looked up with the FULL resolved
      provider ID, prefix included; partition labels come from the first
      host-channel adapter only; a partition lookup error aborts the call. */
  function InstanceMetadata(dir: Directory, node: Node): (r: Result<InstanceMetadata>)
    ensures GetProviderID(dir, node).Failure? ==> r == Failure(GetProviderID(dir, node).error)
    ensures GetProviderID(dir, node).Success? ==>
              var rec := RecordOf(dir.byId(GetProviderID(dir, node).value));
              && (rec.Failure? ==> r == Failure(rec.error))
              && (rec.Success? && !HasAddressPair(rec.value) ==> r == Failure(Panic))
              && (rec.Success? && HasAddressPair(rec.value) && PartitionOf(dir, rec.value).Failure? ==>
                    r == Failure(PartitionOf(dir, rec.value).error))
              && (r.Success? <==> rec.Success? && HasAddressPair(rec.value) && PartitionOf(dir, rec.value).Success?)
              && (r.Success? ==> r.value == Build(rec.value, NodeAddressesOf(rec.value), PartitionOf(dir, rec.value).value))
  {
    var providerId :- GetProviderID(dir, node);
    var inst :- RecordOf(dir.byId(providerId));
    var addresses :- AddressesOrPanic(inst);
    var part :- PartitionOf(dir, inst);
    Success(Build(inst, addresses, part))
  }

  /** Partition labels appear iff the instance has a host-channel adapter and
      the first adapter's partition lookup returned a partition. */
  lemma MetadataPartitionLabels(dir: Directory, node: Node)
    requires InstanceMetadata(dir, node).Success?
    ensures var inst := RecordOf(dir.byId(GetProviderID(dir, node).value)).value;
            var labels := InstanceMetadata(dir, node).value.labels;
            && InstanceLabelKeys <= labels.Keys
            && (LabelPartitionName in labels <==>
                  inst.hostChannelAdapters != [] &&
                  dir.ibNetwork(inst.projectId, inst.hostChannelAdapters[0].ibPartitionId) != Success(None))
  {
    var inst := RecordOf(dir.byId(GetProviderID(dir, node).value)).value;
    PartitionLabelsIff(inst, PartitionOf(dir, inst).value);
  }

  /** The metadata lookup uses the prefixed ID while the other checks strip
      it: against a directory that knows the instance only by its bare
      identifier, the instance exists but its metadata cannot be found. */
  lemma MetadataQueriesUnstrippedId(inst: Instance, t: Table, now: int)
    requires HasAddressPair(inst)
    ensures var dir := Directory(
                         _ => Failure(InstanceNotFound),
                         i => if i == inst.id then Found(Some(inst), Some(200)) else Failed(InstanceNotFound, None),
                         (_, _) => Success(None));
            var node := Node("node1", ForInstance(inst.id), "");
            && InstanceExistsByProviderID(t, node.providerId, now, dir).verdict == Success(true)
            && InstanceTypeByProviderID(dir, node.providerId) == Success(inst.instanceType)
            && InstanceMetadata(dir, node) == Failure(InstanceNotFound)
  {
    var p := ForInstance(inst.id);
    StripAfterPrefix(inst.id);
    assert p != inst.id;
  }
}

=== FILE: legacy_instances.dfy ===
/**
 The older resolver variant, which the controller binary no longer wires in.
 It differs from the live one in three ways: a declared provider ID is always
 trusted (no system-UUID check), the host-name address is the bare instance
 name, and metadata strips the node's declared provider ID directly instead
 of resolving it. Existence and shutdown follow the same rules.
 */
module LegacyInstances {
  import opened Api
  import opened ProviderId
  import opened Liveness
  import opened Metadata
  import Shutdown
  import Instances
  import Upstream
  import LegacyLookup

  /** Any non-empty declared provider ID is returned unchanged; an empty one
      is replaced by the prefixed identifier found by node name. */
  function GetProviderID(dir: Directory, node: Node): (r: Result<string>)
    ensures node.providerId != "" ==> r == Success(node.providerId)
    ensures node.providerId == "" ==> r == FromLookup(dir, node.name)
  {
    if node.providerId == "" then FromLookup(dir, node.name) else Success(node.providerId)
  }

  /** Without a system UUID both variants resolve alike; with one, a stale
      declared ID survives here but not in the live variant. */
  lemma ResolutionAgainstLive(dir: Directory, node: Node)
    ensures node.systemUuid == "" ==> GetProviderID(dir, node) == Instances.GetProviderID(dir, node)
    ensures node.systemUuid != "" && |node.providerId| >= |Prefix| &&
            node.providerId[|Prefix|..] != node.systemUuid ==>
              && GetProviderID(dir, node) == Success(node.providerId)
              && Instances.GetProviderID(dir, node) == FromLookup(dir, node.name)
  {
  }

  /** Exactly three addresses: internal IP, external IP and the bare name. */
  function NodeAddressesOf(inst: Instance): (r: seq<NodeAddress>)
    requires HasAddressPair(inst)
    ensures |r| == 3
    ensures r[0] == NodeAddress(InternalIP, FirstPair(inst).privateIpv4.value)
    ensures r[1] == NodeAddress(ExternalIP, FirstPair(inst).publicIpv4.value)
    ensures r[2] == NodeAddress(Hostname, inst.name)
  {
    [NodeAddress(InternalIP, FirstPair(inst).privateIpv4.value),
     NodeAddress(ExternalIP, FirstPair(inst).publicIpv4.value),
     NodeAddress(Hostname, inst.name)]
  }

  /** The two variants agree on the IP addresses; the live host name is the
      legacy one qualified by the location. */
  lemma AddressesAgainstLive(inst: Instance)
    requires HasAddressPair(inst)
    ensures NodeAddressesOf(inst)[..2] == Instances.NodeAddressesOf(inst)[..2]
    ensures Instances.NodeAddressesOf(inst)[2].address ==
              NodeAddressesOf(inst)[2].address + "." + inst.location + ".compute.internal"
  {
  }

  function InstanceShutdownByProviderID(dir: Directory, providerId: string): (r: Result<bool>)
    ensures |providerId| < |Prefix| ==> r == Failure(Panic)
    ensures |providerId| >= |Prefix| ==>
              var o := dir.byId(providerId[|Prefix|..]);
              && (r.Failure? <==> o.Failed?)
              && (o.Failed? ==> r == Failure(o.error))
              && (r == Success(true) <==> o.Found? && (o.record.None? || Shutdown.IsPoweredOff(o.record.value.state)))
  {
    var id :- InstanceIdOf(providerId);
    Shutdown.Classify(dir.byId(id))
  }

  function InstanceShutdown(dir: Directory, node: Node): (r: Result<bool>)
    ensures GetProviderID(dir, node).Failure? ==> r == Failure(GetProviderID(dir, node).error)
    ensures GetProviderID(dir, node).Success? ==>
              r == InstanceShutdownByProviderID(dir, GetProviderID(dir, node).value)
  {
    var providerId :- GetProviderID(dir, node);
    InstanceShutdownByProviderID(dir, providerId)
  }

  function InstanceExistsByProviderID(t: Table, providerId: string, now: int, dir: Directory): (s: Step)
    ensures |providerId| < |Prefix| ==> s == Step(Failure(Panic), t)
    ensures s.verdict.Failure? ==> s.table == t
    ensures t.Keys <= s.table.Keys
    ensures |providerId| >= |Prefix| ==>
              var o := dir.byId(providerId[|Prefix|..]);
              && s == Observe(t, providerId, now, o)
              && (s.verdict.Failure? <==> Propagates(o))
              && (Propagates(o) ==> s.verdict == Failure(o.error))
              && (Refreshes(o) || (Reports404(o) && providerId !in t) ==> s.table == t[providerId := now])
              && (Reports404(o) && providerId in t ==> s.table == t)
              && (s.verdict == Success(false) <==>
                    Reports404(o) && providerId in t && now - t[providerId] >= GraceWindow)
  {
    match InstanceIdOf(providerId)
    case Failure(e) => Step(Failure(e), t)
    case Success(id) => Observe(t, providerId, now, dir.byId(id))
  }

  /** Given the same directory answers, the by-provider-ID checks of the two
      variants are the same, table included. */
  lemma ByProviderIdAgainstLive(t: Table, providerId: string, now: int, dir: Directory)
    ensures InstanceExistsByProviderID(t, providerId, now, dir) ==
            Instances.InstanceExistsByProviderID(t, providerId, now, dir)
    ensures InstanceShutdownByProviderID(dir, providerId) ==
            Instances.InstanceShutdownByProviderID(dir, providerId)
  {
  }

  /** With the legacy GetInstance lookup a deleted instance does expire: a
      backend answering 404 for the identifier makes a first check report
      existence and a check one grace window later report deletion. The
      production client's empty listing never gets there. */
  lemma MissExpiresWithLegacyLookup(t: Table, providerId: string, t0: int, scope: string,
                                    backend: Upstream.Backend)
    requires scope != "" && |providerId| >= |Prefix| && providerId !in t
    requires backend.getInstance(scope, providerId[|Prefix|..]).failed
    requires backend.getInstance(scope, providerId[|Prefix|..]).status == Some(404)
    ensures var d := LegacyLookup.AsDirectory(scope, backend);
            var s1 := InstanceExistsByProviderID(t, providerId, t0, d);
            var s2 := InstanceExistsByProviderID(s1.table, providerId, t0 + GraceWindow, d);
            && s1.verdict == Success(true)
            && s2.verdict == Success(false)
  {
  }

  function InstanceExists(t: Table, node: Node, now: int, dir: Directory): (s: Step)
    ensures GetProviderID(dir, node).Failure? ==> s == Step(Failure(GetProviderID(dir, node).error), t)
    ensures GetProviderID(dir, node).Success? ==>
              s == InstanceExistsByProviderID(t, GetProviderID(dir, node).value, now, dir)
  {
    match GetProviderID(dir, node)
    case Failure(e) => Step(Failure(e), t)
    case Success(providerId) => InstanceExistsByProviderID(t, providerId, now, dir)
  }

  /** Metadata from the node's declared provider ID, stripped without any
      resolution: an empty or short declared ID panics. */
  function InstanceMetadata(dir: Directory, node: Node): (r: Result<InstanceMetadata>)
    ensures |node.providerId| < |Prefix| ==> r == Failure(Panic)
    ensures |node.providerId| >= |Prefix| ==>
              var rec := RecordOf(dir.byId(node.providerId[|Prefix|..]));
              && (rec.Failure? ==> r == Failure(rec.error))
              && (rec.Success? && !HasAddressPair(rec.value) ==> r == Failure(Panic))
              && (rec.Success? && HasAddressPair(rec.value) && PartitionOf(dir, rec.value).Failure? ==>
                    r == Failure(PartitionOf(dir, rec.value).error))
              && (r.Success? <==> rec.Success? && HasAddressPair(rec.value) && PartitionOf(dir, rec.value).Success?)
              && (r.Success? ==> r.value == Build(rec.value, NodeAddressesOf(rec.value), PartitionOf(dir, rec.value).value))
  {
    var id :- InstanceIdOf(node.providerId);
    var inst :- RecordOf(dir.byId(id));
    var addresses :- if HasAddressPair(inst) then Success(NodeAddressesOf(inst)) else Failure(Panic);
    var part :- PartitionOf(dir, inst);
    Success(Build(inst, addresses, part))
  }

  /** Legacy metadata never looks the node up by name and ignores the system UUID. */
  lemma MetadataSkipsResolution(dir: Directory, node: Node, uuid: string,
                                byName: string -> Result<Instance>)
    ensures InstanceMetadata(dir, node) ==
            InstanceMetadata(dir.(byName := byName), node.(systemUuid := uuid))
  {
  }

  /** Where the live variant asks the directory for the prefixed ID, this one
      asks for the bare identifier and finds the instance. */
  lemma MetadataQueriesStrippedId(inst: Instance)
    requires HasAddressPair(inst) && inst.hostChannelAdapters == []
    ensures var dir := Directory(
                         _ => Failure(InstanceNotFound),
                         i => if i == inst.id then Found(Some(inst), Some(200)) else Failed(InstanceNotFound, None),
                         (_, _) => Success(None));
            var node := Node("node1", ForInstance(inst.id), "");
            && InstanceMetadata(dir, node) == Success(Build(inst, NodeAddressesOf(inst), None))
            && Instances.InstanceMetadata(dir, node) == Failure(InstanceNotFound)
  {
    StripAfterPrefix(inst.id);
    assert ForInstance(inst.id) != inst.id;
  }
}

=== FILE: legacy_lookup.dfy ===
/**
 The lookup helpers of the older controller variant, which call the
 generated client directly. By name they behave as the production client;
 by identifier they use the single-instance GetInstance call and so have no
 empty-result case.
 */
module LegacyLookup {
  import opened Api
  import opened Upstream

  /** Lookup by node name: project scope required, the query is the short
      name, an empty listing is "not found", otherwise the first match. */
  function GetInstanceByName(scope: string, backend: Backend, nodeName: string): (r: Result<Instance>)
    ensures scope == "" ==> r == Failure(ProjectIDNotSet)
    ensures scope != "" ==>
      var reply := backend.listInstances(scope, ByNames(ShortName(nodeName)));
      && (r.Success? <==> !reply.failed && |reply.body| > 0)
      && (r.Success? ==> r.value == reply.body[0])
      && (r == Failure(InstanceNotFound) <==> !reply.failed && reply.body == [])
      && (r == Failure(Upstream) <==> reply.failed)
  {
    if scope == "" then Failure(ProjectIDNotSet)
    else
      var reply := backend.listInstances(scope, ByNames(ShortName(nodeName)));
      if reply.failed then Failure(Upstream)
      else if |reply.body| == 0 then Failure(InstanceNotFound)
      else Success(reply.body[0])
  }

  /** Partition lookup: an upstream error, or the (never nil) partition. */
  function GetIBNetwork(backend: Backend, projectId: string, partitionId: string): (r: Result<Option<IbPartition>>)
    ensures r.Failure? <==> backend.getIbPartition(projectId, partitionId).failed
    ensures r.Failure? ==> r.error == Upstream
    ensures r.Success? ==> r.value == Some(backend.getIbPartition(projectId, partitionId).body)
  {
    var reply := backend.getIbPartition(projectId, partitionId);
    if reply.failed then Failure(Upstream) else Success(Some(reply.body))
  }

  /** Lookup by identifier with GetInstance: project scope required, an
      upstream error keeps its response status, and success always carries
      the record together with the response status. */
  function GetInstanceByID(scope: string, backend: Backend, instanceId: string): (r: IdOutcome)
    ensures scope == "" ==> r == Failed(ProjectIDNotSet, None)
    ensures r.Found? ==> r.record.Some?
    ensures r.Failed? ==> r.error in {ProjectIDNotSet, Upstream}
    ensures scope != "" ==>
      var reply := backend.getInstance(scope, instanceId);
      && (r.Found? <==> !reply.failed)
      && (r.Found? ==> r == Found(Some(reply.body), reply.status))
      && (r.Failed? ==> r == Failed(Upstream, reply.status))
  {
    if scope == "" then Failed(ProjectIDNotSet, None)
    else
      var reply := backend.getInstance(scope, instanceId);
      if reply.failed then Failed(Upstream, reply.status)
      else Found(Some(reply.body), reply.status)
  }

  /** The legacy helpers bundled as a directory. */
  function AsDirectory(scope: string, backend: Backend): Directory
  {
    Directory(
      n => GetInstanceByName(scope, backend, n),
      i => GetInstanceByID(scope, backend, i),
      (p, h) => GetIBNetwork(backend, p, h))
  }
}

=== FILE: liveness.dfy ===
/**
 The liveness table: per provider ID, the instant from which a run of HTTP
 404 answers is timed. A 404 is trusted as deletion only once it has lasted
 the five-minute grace window; every other non-propagated answer restamps
 the entry, and no entry is ever removed.
 */
module Liveness {
  import opened Api

  /** FIVE * time.Minute, in nanoseconds (the unit of the `now` instants). */
  const GraceWindow: int := 5 * 60 * 1000000000

  /** Provider ID to the instant stored for it. */
  type Table = map<string, int>

  /** The verdict of one existence check and the table after it. */
  datatype Step = Step(verdict: Result<bool>, table: Table)

  /** An error that came with a response whose status is not 404: the only
      lookup outcome the existence check hands back as an error. */
  predicate Propagates(o: IdOutcome) {
    o.Failed? && o.status.Some? && o.status.value != 404
  }

  /** A response with status 404, with or without an error. */
  predicate Reports404(o: IdOutcome) {
    o.status == Some(404)
  }

  /** Every other outcome: success, or an error without a response. */
  predicate Refreshes(o: IdOutcome) {
    !Propagates(o) && !Reports404(o)
  }

  /** One existence check of `providerId` at instant `now`, given the lookup outcome. */
  function Observe(t: Table, providerId: string, now: int, o: IdOutcome): (s: Step)
    ensures Propagates(o) ==> s == Step(Failure(o.error), t)
    ensures !Propagates(o) ==> s.verdict.Success? && s.table.Keys == t.Keys + {providerId}
    ensures forall k :: k in t && k != providerId ==> k in s.table && s.table[k] == t[k]
    ensures Reports404(o) && providerId !in t ==> s.table[providerId] == now && s.verdict == Success(true)
    ensures Reports404(o) && providerId in t ==>
              s.table[providerId] == t[providerId] && s.verdict == Success(now - t[providerId] < GraceWindow)
    ensures Refreshes(o) ==> s.table[providerId] == now && s.verdict == Success(true)
  {
    if Propagates(o) then Step(Failure(o.error), t)
    else
      var t1 := if providerId in t then t else t[providerId := now];
      var firstSeen := t1[providerId];
      if Reports404(o) then Step(Success(now - firstSeen < GraceWindow), t1)
      else Step(Success(true), t1[providerId := now])
  }

  /** One existence check of a provider ID: when it happened and what the lookup answered. */
  datatype Sighting = Sighting(at: int, outcome: IdOutcome)

  /** The table after a history of checks of one provider ID, oldest first. */
  function Replay(t: Table, providerId: string, h: seq<Sighting>): (r: Table)
    ensures t.Keys <= r.Keys
    ensures forall k :: k in r && k != providerId ==> k in t && r[k] == t[k]
  {
    if h == [] then t
    else
      var last := h[|h| - 1];
      Observe(Replay(t, providerId, h[..|h| - 1]), providerId, last.at, last.outcome).table
  }

  predicate IsRefresh(s: Sighting) {
    Refreshes(s.outcome)
  }

  predicate IsMiss(s: Sighting) {
    Reports404(s.outcome)
  }

  /** The position of the latest refreshing sighting, if any. */
  function LastRefresh(h: seq<Sighting>): (r: Option<nat>)
    ensures r.Some? ==> r.value < |h| && IsRefresh(h[r.value])
    ensures r.Some? ==> forall j :: r.value < j < |h| ==> !IsRefresh(h[j])
    ensures r.None? ==> forall j :: 0 <= j < |h| ==> !IsRefresh(h[j])
  {
    if h == [] then None
    else if IsRefresh(h[|h| - 1]) then Some(|h| - 1)
    else LastRefresh(h[..|h| - 1])
  }

  /** The position of the earliest 404 sighting, if any. */
  function FirstMiss(h: seq<Sighting>): (r: Option<nat>)
    ensures r.Some? ==> r.value < |h| && IsMiss(h[r.value])
    ensures r.Some? ==> forall j :: 0 <= j < r.value ==> !IsMiss(h[j])
    ensures r.None? ==> forall j :: 0 <= j < |h| ==> !IsMiss(h[j])
  {
    if h == [] then None
    else if IsMiss(h[0]) then Some(0)
    else match FirstMiss(h[1..])
      case None => None
      case Some(i) => Some(i + 1)
  }

  /** Reference definition of the instant a history times 404s from: the
      latest check that was neither a 404 nor an error with a response (a
      success or a status-less error), else the earliest 404, else none. */
  function Anchor(h: seq<Sighting>): Option<int> {
    match LastRefresh(h)
    case Some(i) => Some(h[i].at)
    case None =>
      match FirstMiss(h)
      case Some(i) => Some(h[i].at)
      case None => None
  }

  /** Appending a sighting keeps an earlier first 404 and otherwise can only add one. */
  lemma {:induction false} FirstMissSnoc(h: seq<Sighting>, s: Sighting)
    ensures FirstMiss(h + [s]) ==
              if FirstMiss(h).Some? then FirstMiss(h)
              else if IsMiss(s) then Some(|h|)
              else None
  {
    if h != [] {
      assert (h + [s])[0] == h[0];
      assert (h + [s])[1..] == h[1..] + [s];
      FirstMissSnoc(h[1..], s);
    }
  }

  /** The table entry a history leaves for a provider ID that started absent
      is exactly its Anchor. */
  lemma {:induction false} ReplayMatchesAnchor(t: Table, providerId: string, h: seq<Sighting>)
    requires providerId !in t
    ensures providerId in Replay(t, providerId, h) <==> Anchor(h).Some?
    ensures providerId in Replay(t, providerId, h) ==> Replay(t, providerId, h)[providerId] == Anchor(h).value
  {
    if h != [] {
      var h' := h[..|h| - 1];
      var last := h[|h| - 1];
      assert h == h' + [last];
      ReplayMatchesAnchor(t, providerId, h');
      FirstMissSnoc(h', last);
      var f := FirstMiss(h');
      if f.Some? {
        assert h[f.value] == h'[f.value];
      }
      var l := LastRefresh(h');
      if l.Some? {
        assert h[l.value] == h'[l.value];
      }
    }
  }

  /** The grace-window verdict, stated against the reference definition: a
      404 check answers "exists" iff fewer than five minutes have passed since
      the Anchor of the history that includes it. */
  lemma MissVerdictFromAnchor(t: Table, providerId: string, h: seq<Sighting>, now: int, o: IdOutcome)
    requires providerId !in t
    requires Reports404(o)
    ensures Anchor(h + [Sighting(now, o)]).Some?
    ensures Observe(Replay(t, providerId, h), providerId, now, o).verdict ==
              Success(now - Anchor(h + [Sighting(now, o)]).value < GraceWindow)
  {
    var h' := h + [Sighting(now, o)];
    assert h'[..|h'| - 1] == h;
    ReplayMatchesAnchor(t, providerId, h');
  }

  /** No check ever shortens the table. */
  lemma NeverEvicts(t: Table, providerId: string, h: seq<Sighting>, k: string)
    requires k in t
    ensures k in Replay(t, providerId, h)
  {
  }

  /** The scenario of a sustained absence: the first 404 answers true, one
      four minutes later true, one at the five-minute mark false. */
  lemma SustainedAbsence(t: Table, providerId: string, t0: int, o: IdOutcome)
    requires providerId !in t
    requires Reports404(o)
    ensures var s1 := Observe(t, providerId, t0, o);
            var s2 := Observe(s1.table, providerId, t0 + 4 * 60 * 1000000000, o);
            var s3 := Observe(s2.table, providerId, t0 + GraceWindow, o);
            s1.verdict == Success(true) && s2.verdict == Success(true) && s3.verdict == Success(false)
  {
  }

  /** A sighting between two 404s restarts the window from the sighting. */
  lemma SightingResetsClock(t: Table, providerId: string, t1: int, ok: IdOutcome, t2: int, miss: IdOutcome)
    requires Refreshes(ok) && Reports404(miss)
    ensures var s1 := Observe(t, providerId, t1, ok);
            Observe(s1.table, providerId, t2, miss).verdict == Success(t2 - t1 < GraceWindow)
  {
  }
}

=== FILE: metadata.dfy ===
/**
 The pieces of the orchestrator-facing projection that both controller
 variants share: dereferencing a looked-up record, the address pair the
 addresses come from, the InfiniBand partition lookup and the label map.
 */
module Metadata {
  import opened Api
  import opened ProviderId

  const LabelInstanceId: string := "crusoe.ai/instance.id"
  const LabelGroupId: string := "crusoe.ai/instance.group.id"
  const LabelTemplateId: string := "crusoe.ai/instance.template.id"
  const LabelState: string := "crusoe.ai/instance.state"
  const LabelPartitionName: string := "crusoe.ai/ib.partition.name"
  const LabelPartitionId: string := "crusoe.ai/ib.partition.id"
  const LabelPartitionNetworkId: string := "crusoe.ai/ib.partition.networkId"

  const InstanceLabelKeys: set<string> := {LabelInstanceId, LabelGroupId, LabelTemplateId, LabelState}
  const PartitionLabelKeys: set<string> := {LabelPartitionName, LabelPartitionId, LabelPartitionNetworkId}

  /** The record of a successful lookup; an error is passed on, and a nil
      record panics at its first dereference. */
  function RecordOf(o: IdOutcome): (r: Result<Instance>)
    ensures r.Success? <==> o.Found? && o.record.Some?
    ensures r.Success? ==> r.value == o.record.value
    ensures o.Failed? ==> r == Failure(o.error)
    ensures o.Found? && o.record.None? ==> r == Failure(Panic)
  {
    match o
    case Failed(e, _) => Failure(e)
    case Found(None, _) => Failure(Panic)
    case Found(Some(inst), _) => Success(inst)
  }

  /** The record has a first network interface with a first address pair,
      and both addresses of that pair are present; without the interface or
      the pair, reading the addresses indexes out of range, and without an
      address it dereferences a nil pointer. */
  predicate HasAddressPair(inst: Instance) {
    && |inst.networkInterfaces| > 0 && |inst.networkInterfaces[0].ips| > 0
    && inst.networkInterfaces[0].ips[0].privateIpv4.Some?
    && inst.networkInterfaces[0].ips[0].publicIpv4.Some?
  }

  function FirstPair(inst: Instance): IpPair
    requires HasAddressPair(inst)
  {
    inst.networkInterfaces[0].ips[0]
  }

  /** The partition of the FIRST host-channel adapter, looked up only when
      the instance has an adapter at all. */
  function PartitionOf(dir: Directory, inst: Instance): (r: Result<Option<IbPartition>>)
    ensures inst.hostChannelAdapters == [] ==> r == Success(None)
    ensures inst.hostChannelAdapters != [] ==>
              r == dir.ibNetwork(inst.projectId, inst.hostChannelAdapters[0].ibPartitionId)
  {
    if |inst.hostChannelAdapters| > 0 then
      dir.ibNetwork(inst.projectId, inst.hostChannelAdapters[0].ibPartitionId)
    else Success(None)
  }

  /** Adapters after the first never influence the partition lookup. */
  lemma PartitionUsesFirstAdapterOnly(dir: Directory, inst: Instance, rest: seq<HostChannelAdapter>)
    requires inst.hostChannelAdapters != []
    ensures PartitionOf(dir, inst) == PartitionOf(dir, inst.(hostChannelAdapters := [inst.hostChannelAdapters[0]] + rest))
  {
  }

  /** The label map: the four instance labels always, the three partition
      labels exactly when a partition was found. */
  function Labels(inst: Instance, part: Option<IbPartition>): (m: map<string, string>)
    ensures m.Keys == InstanceLabelKeys + (if part.Some? then PartitionLabelKeys else {})
    ensures m[LabelInstanceId] == inst.id
    ensures m[LabelGroupId] == inst.instanceGroupId
    ensures m[LabelTemplateId] == inst.instanceTemplateId
    ensures m[LabelState] == inst.state
    ensures part.Some? ==>
              && m[LabelPartitionName] == part.value.name
              && m[LabelPartitionId] == part.value.id
              && m[LabelPartitionNetworkId] == part.value.ibNetworkId
  {
    var partitionLabels :=
      if part.Some? then
        map[LabelPartitionName := part.value.name,
            LabelPartitionId := part.value.id,
            LabelPartitionNetworkId := part.value.ibNetworkId]
      else map[];
    partitionLabels[LabelInstanceId := inst.id]
                   [LabelGroupId := inst.instanceGroupId]
                   [LabelTemplateId := inst.instanceTemplateId]
                   [LabelState := inst.state]
  }

  /** The partition labels and the instance labels never share a key, so
      the partition labels are present iff a partition was found. */
  lemma PartitionLabelsIff(inst: Instance, part: Option<IbPartition>)
    ensures InstanceLabelKeys !! PartitionLabelKeys
    ensures LabelPartitionName in Labels(inst, part) <==> part.Some?
    ensures PartitionLabelKeys <= Labels(inst, part).Keys <==> part.Some?
  {
  }

  /** The metadata record for a found instance. */
  function Build(inst: Instance, addresses: seq<NodeAddress>, part: Option<IbPartition>): (m: InstanceMetadata)
    ensures InstanceIdOf(m.providerId) == Success(inst.id)
    ensures HasPrefix(m.providerId)
    ensures m.instanceType == inst.instanceType && m.region == inst.location
    ensures m.labels == Labels(inst, part) && m.addresses == addresses
  {
    StripAfterPrefix(inst.id);
    InstanceMetadata(ForInstance(inst.id), inst.instanceType, inst.location, Labels(inst, part), addresses)
  }
}

=== FILE: provider_id.dfy ===
/**
 Provider identifiers: the fixed `crusoe://` scheme the orchestrator sees in
 front of an instance identifier, and the (unchecked) removal of it.
 */
module ProviderId {
  import opened Api

  const Prefix: string := "crusoe://"

  /** The identifier a provider ID names: the input with exactly its first
      |Prefix| characters dropped. The dropped characters are never compared
      with the prefix; an input shorter than the prefix makes the slice panic. */
  function InstanceIdOf(providerId: string): (r: Result<string>)
    ensures |providerId| < |Prefix| <==> r == Failure(Panic)
    ensures |providerId| >= |Prefix| ==> r == Success(providerId[|Prefix|..])
    ensures r.Success? ==> |r.value| + |Prefix| == |providerId|
    ensures r.Success? ==> providerId == providerId[..|Prefix|] + r.value
  {
    if |providerId| < |Prefix| then Failure(Panic) else Success(providerId[|Prefix|..])
  }

  /** The provider ID starts with the scheme. */
  predicate HasPrefix(providerId: string) {
    |providerId| >= |Prefix| && providerId[..|Prefix|] == Prefix
  }

  /** The provider ID the core synthesizes for an instance identifier. */
  function ForInstance(id: string): (p: string)
    ensures |p| == |Prefix| + |id|
    ensures HasPrefix(p)
  {
    Prefix + id
  }

  /** The provider ID synthesized from a lookup of the node name: the found
      instance's identifier behind the prefix; a lookup error is passed on. */
  function FromLookup(dir: Directory, nodeName: string): (r: Result<string>)
    ensures dir.byName(nodeName).Failure? ==> r == Failure(dir.byName(nodeName).error)
    ensures dir.byName(nodeName).Success? ==>
              && r.Success? && HasPrefix(r.value)
              && InstanceIdOf(r.value) == Success(dir.byName(nodeName).value.id)
  {
    var inst :- dir.byName(nodeName);
    StripAfterPrefix(inst.id);
    Success(ForInstance(inst.id))
  }

  /** Stripping a synthesized provider ID recovers the identifier. */
  lemma StripAfterPrefix(id: string)
    ensures InstanceIdOf(ForInstance(id)) == Success(id)
  {
    assert ForInstance(id)[|Prefix|..] == id;
  }

  /** A provider ID that does carry the prefix is rebuilt by prefixing what
      stripping it yields. */
  lemma PrefixAfterStrip(providerId: string)
    requires HasPrefix(providerId)
    ensures InstanceIdOf(providerId).Success?
    ensures ForInstance(InstanceIdOf(providerId).value) == providerId
  {
    assert providerId == providerId[..|Prefix|] + providerId[|Prefix|..];
  }

  /** The prefix is not checked: any nine characters are dropped. */
  lemma PrefixIsNotChecked()
    ensures InstanceIdOf("aws://abcXYZ") == Success("XYZ")
    ensures InstanceIdOf("crusoe:/") == Failure(Panic)
  {
  }
}

=== FILE: shutdown.dfy ===
/**
 Power-state classification: an instance is reported shut down when the
 lookup succeeded and either carried no record or a record whose lifecycle
 state is one of the two powered-off states. No grace window applies.
 */
module Shutdown {
  import opened Api

  const StateShutoff: string := "STATE_SHUTOFF"
  const StateShutdown: string := "STATE_SHUTDOWN"

  predicate IsPoweredOff(state: string) {
    state == StateShutoff || state == StateShutdown
  }

  /** The verdict for one by-identifier lookup outcome. Any lookup error,
      whatever its status, is returned as the error. */
  function Classify(o: IdOutcome): (r: Result<bool>)
    ensures r.Failure? <==> o.Failed?
    ensures o.Failed? ==> r.error == o.error
    ensures r == Success(true) <==>
              o.Found? && (o.record.None? || o.record.value.state in {StateShutoff, StateShutdown})
    ensures r == Success(false) <==>
              o.Found? && o.record.Some? && o.record.value.state !in {StateShutoff, StateShutdown}
  {
    match o
    case Failed(e, _) => Failure(e)
    case Found(None, _) => Success(true)
    case Found(Some(inst), _) => Success(IsPoweredOff(inst.state))
  }

  /** The verdict does not look at the response status: a 404 that came with
      an error is an error here, whereas the existence check tolerates it. */
  lemma StatusIsIgnored(o: IdOutcome, status: Option<int>)
    ensures o.Found? ==> Classify(o) == Classify(Found(o.record, status))
    ensures o.Failed? ==> Classify(o) == Classify(Failed(o.error, status))
  {
  }

  /** A running instance, or one in an empty/default state, is not shut down. */
  lemma RunningIsNotShutdown(inst: Instance, status: Option<int>)
    requires inst.state == "STATE_RUNNING" || inst.state == ""
    ensures Classify(Found(Some(inst), status)) == Success(false)
  {
  }
}

=== FILE: upstream.dfy ===
/**
 The generated Crusoe API client, seen only through what its calls return,
 and the node-name shortening both directory clients apply before a
 by-name query.
 */
module Upstream {
  import opened Api

  /** The filter of a ListInstances call: by instance names or by instance ids. */
  datatype ListFilter = ByNames(name: string) | ByIds(id: string)

  /** What a generated-client call returns: a body (the zero value when the
      call failed), the HTTP status of the response (None for a nil response),
      and whether the call returned an error. */
  datatype Reply<T> = Reply(body: T, status: Option<int>, failed: bool)

  /** The three calls of the generated client the core reaches. Each takes the
      project scope first. */
  datatype Backend = Backend(
    listInstances: (string, ListFilter) -> Reply<seq<Instance>>,
    getInstance: (string, string) -> Reply<Instance>,
    getIbPartition: (string, string) -> Reply<IbPartition>)

  /** The first field of splitting a node name at ".": the longest prefix
      without a dot, so a fully-qualified host name yields its host part. */
  function ShortName(nodeName: string): (r: string)
    ensures r <= nodeName
    ensures '.' !in r
    ensures |r| < |nodeName| ==> nodeName[|r|] == '.'
  {
    if nodeName == [] || nodeName[0] == '.' then []
    else [nodeName[0]] + ShortName(nodeName[1..])
  }

  /** The three properties of ShortName determine it: any dot-free prefix
      that reaches a dot or the end of the name is the short name. */
  lemma ShortNameUnique(nodeName: string, p: string)
    requires p <= nodeName
    requires '.' !in p
    requires |p| < |nodeName| ==> nodeName[|p|] == '.'
    ensures p == ShortName(nodeName)
  {
    var r := ShortName(nodeName);
    assert |p| == |r|;
    assert p == nodeName[..|p|] && r == nodeName[..|r|];
  }

  /** A qualified name shortens to its dot-free first label. */
  lemma ShortNameOfQualified(name: string, rest: string)
    requires '.' !in name
    ensures ShortName(name + "." + rest) == name
  {
    var s := name + "." + rest;
    assert name <= s;
    assert s[|name|] == '.';
    ShortNameUnique(s, name);
  }

  /** Shortening is idempotent. */
  lemma ShortNameIdempotent(nodeName: string)
    ensures ShortName(ShortName(nodeName)) == ShortName(nodeName)
  {
    var r := ShortName(nodeName);
    ShortNameUnique(r, r);
  }
}
